=== FILE: README.md ===
# dvmn-vacancy: a verified model of the salary report core

The script asks two job boards, HeadHunter and SuperJob, for programmer
vacancies in one city. It estimates one rouble salary per vacancy and reports
three numbers per programming language: vacancies found, vacancies processed,
and the average salary. This project models the pure logic of that pipeline
in Dafny and proves properties of the model:

- `Estimator`: the salary estimator `get_predict_salary` and the two
  provider adapters that put a currency check in front of it.
- `Areas`: HeadHunter's depth-first area-tree search and the "not found"
  checks of both city resolvers.
- `Pagination`: the page loop of both vacancy fetchers, run against an
  abstract server.
- `Aggregator`: `get_salaries`, the per-language record, and the loop over
  languages.
- `Reports`: the HeadHunter and SuperJob pipelines wired together.
- `Wrappers` and `Errors`: `Option`/`Result` and the three ways a report can
  end early. These are a town that is not found, a failed request, and a
  mean taken over no estimates.

Amounts are Dafny `real`s. The network is replaced by oracles:

- the area tree is passed in as a value;
- SuperJob's town search is a function from keyword to towns;
- a HeadHunter vacancy search is a `Server` holding the page count it
  reports and a function from page number to reply (`Page(items)` or
  `Failed(status)`);
- a SuperJob vacancy search is an `SjServer` holding the item total it
  reports and the same kind of reply function; `SjPages` derives the page
  count from the total.

Three behaviours of the code are easy to miss, and the model keeps each one:

- A present estimate can be zero or negative. With both bounds given the
  code returns `(to - from) / 2`, so equal bounds give `0` and `from > to`
  gives a negative estimate (`Estimator.WorkedExamples`). This half-spread
  formula is kept exactly as written.
- The HeadHunter resolver raises `TownNotFound` for an empty id too, because
  it tests `not area_id` (`Areas.GetHhAreaId`).
- A language with no estimates makes `statistics.mean` raise. Here that ends
  the whole report with `NoEstimates` (`Aggregator.StatsFor`).

## Model

| member | source | states |
|---|---|---|
| Estimator.PredictSalary | script.py:15-25 | no estimate exactly when both bounds are missing or zero; `to*0.8` with only an upper bound, `from*1.2` with only a lower bound, `(to-from)/2` with both |
| Estimator.ZeroBoundIsAbsent | script.py:16-22 | a bound of zero gives the same estimate as a missing bound, on either side, whatever the other bound is |
| Estimator.SingleBoundDirection | script.py:19-23 | for a positive single bound, the estimate is below an upper bound and above a lower bound |
| Estimator.SpreadIsNotMean | script.py:25 | with both bounds non-zero the estimate is the mean minus the lower bound, and never the mean |
| Estimator.WorkedExamples | script.py:15-25 | 0/0 and None/None give nothing, None/1000 gives 800, 1000/None gives 1200, 1000/2000 gives 500, 1000/1000 gives 0, 2000/1000 gives -500 |
| Estimator.PredictRubSalaryHh | script.py:69-73 | nothing when the salary is missing or not in `RUR`; otherwise exactly the estimator on `from`/`to`; an estimate exists iff all three gates pass |
| Estimator.PredictRubSalarySj | script.py:128-132 | nothing unless the currency is `rub`; otherwise exactly the estimator on `payment_from`/`payment_to`; an estimate exists iff both gates pass |
| Areas.FindArea | script.py:28-35 | the recursive search returns the same as a linear search over the pre-order listing of the tree (parent before children, siblings left to right) |
| Areas.PreOrderMembers | script.py:28-35 | the pre-order listing holds exactly the roots and the nodes below them |
| Areas.FindAreaSound | script.py:28-35 | a returned id belongs to a node named `text`, and no node before it in pre-order has that name |
| Areas.FindAreaComplete | script.py:28-35 | the search returns nothing exactly when no node of the tree is named `text` |
| Areas.GetHhAreaId | script.py:42-45 | `TownNotFound` with the HeadHunter message exactly when the search finds nothing or an empty id; otherwise the id found |
| Areas.GetSjAreaId | script.py:104-106 | `TownNotFound` with the SuperJob message exactly when the town list is empty; otherwise the first town's id |
| Pagination.Requests | script.py:57-64 | the loop makes at least one and at most `max(1, pages)` requests, exactly that many when no page fails |
| Pagination.SjPages | script.py:120 | `total // 100 + 1` is at least 1 for a non-negative total, and it is the least page count whose pages of 100 hold more than `total` items, so a multiple of 100 costs one extra, empty page |
| Pagination.FetchAll | script.py:57-64 | the loop returns the in-order concatenation of pages `0 .. max(1,pages)-1`, having made that many requests; on a failed page it stops there with `RequestFailed` and that status, and every earlier page succeeded |
| Pagination.GatherStopsAtFailure | script.py:58-59 | once a page fails, a longer fetch fails too, with that page's error |
| Pagination.GetHhVacancies | script.py:48-66 | the HeadHunter loop returns the reference fetch for the page count the server reports; it makes between 1 and `max(1, pages)` requests, exactly that many when every page succeeds, and otherwise stops at the first failed page |
| Pagination.GetSjVacancies | script.py:109-125 | the SuperJob loop returns the reference fetch for `total // 100 + 1` pages and makes that many requests when every page succeeds; otherwise it stops at the first failed page |
| Pagination.GatherListing | script.py:57-64 | if each page is its slice of a listing, `n` pages deliver the listing up to the start of page `n`, in order, with no gap and no repeat |
| Pagination.SjFetchIsComplete | script.py:117-124 | against a server that serves a listing of `total` items page by page, SuperJob's fetch returns exactly that listing |
| Pagination.HhFetchIsComplete | script.py:57-64 | the same for HeadHunter, when the reported pages of 20 can hold the listing |
| Aggregator.Present | script.py:91 | the values kept are never more than the input |
| Aggregator.PresentAppend | script.py:76-82 | the filter works on each part of a concatenation separately, so kept values stay in input order |
| Aggregator.PresentMembers | script.py:76-82 | a value is kept exactly when it was present in the input |
| Aggregator.PresentEmpty | script.py:91-94 | nothing is kept exactly when every estimate is missing |
| Aggregator.PresentFull | script.py:91-93 | everything is kept exactly when no estimate is missing |
| Aggregator.GetSalaries | script.py:76-82 | the loop returns the present estimates in input order, and no more of them than there are vacancies |
| Aggregator.MeanBetween | script.py:94 | the mean of values lying in `[lo, hi]` lies in `[lo, hi]` |
| Aggregator.Truncate | script.py:94 | `int()` truncates toward zero: the result is within one of its argument, on the zero side |
| Aggregator.StatsFor | script.py:90-94 | `NoEstimates` exactly when no vacancy has an estimate; otherwise found is the vacancy count, processed is the number of estimates with `0 < processed <= found`, equal iff every vacancy has one, and the average is the truncated mean |
| Aggregator.StatsAverageBetween | script.py:94 | when every estimate lies in `[lo, hi]` with `lo >= 0`, the reported average lies between `floor(lo)` and `hi` |
| Aggregator.Query | script.py:90 | the search phrase is the fixed prefix `программист ` followed by the language, the same for both providers |
| Aggregator.LanguageStep | script.py:90-94 | succeeds exactly when the fetch succeeds and some fetched vacancy has an estimate; otherwise fails with the fetch's error or `NoEstimates`; on success found is the number fetched and `0 < processed <= found` |
| Aggregator.PredictProgrammersVacancies | script.py:85-96 | on success the keys are exactly the languages, each entry is that language's record, and processed <= found in every entry |
| Aggregator.PredictSucceedsIff | script.py:89-94 | the report succeeds exactly when every language's step succeeds |
| Aggregator.PredictFirstError | script.py:89-94 | a failed report carries the error of the first language that failed, and all earlier languages succeeded |
| Reports.HhAreaFilter | script.py:87 | no area filter without a city; otherwise the resolved id, or a failure carrying the resolver's error |
| Reports.PredictHhProgrammersVacancies | script.py:85-96 | a city that does not resolve fails with the resolver's error (HeadHunter's `TownNotFound`); once it resolves, the report is exactly the language loop over the HeadHunter fetcher and adapter; on success it is keyed by the languages, with processed <= found |
| Reports.SjAreaFilter | script.py:137 | no town filter without a city; fails with SuperJob's `TownNotFound` exactly when the keyword search finds no town; otherwise the first town's id |
| Reports.PredictSjProgrammersVacancies | script.py:135-146 | a city that does not resolve fails with SuperJob's `TownNotFound`; once it resolves, the report is exactly the language loop over the SuperJob fetcher and adapter; on success it is keyed by the languages, with processed <= found |
| Reports.SampleStats | script.py:90-94 | a 1000..2000 `RUR` vacancy plus one with no salary give found 2, processed 1, average 500 |
| Reports.SampleHhReport | script.py:85-96 | those two vacancies served as a single page give that record for the language |

## Left out

- HTTP requests, URLs, headers, query parameters and `raise_for_status` are replaced by oracles. A failed reply is `Failed(status)`. The failure of the areas and towns requests themselves is not modelled: both reach the model as values.
- The reported page count (HeadHunter `pages`, SuperJob `total`) is taken to be the same on every reply. With a count that changed between replies the source loop need not stop.
- HeadHunter's server-side limit on how deep paging may go is not modelled.
- Python float arithmetic (`* 0.8`, `* 1.2`, `/ 2`, `statistics.mean`) is modelled over exact reals, not IEEE-754.
- Aggregator.PredictProgrammersVacancies: returns a Dafny `map`, so the insertion order of the Python dict, which only the table printing uses, is not stated.
- `print_table` and `terminaltables`, `load_dotenv`, `os.getenv`, and `main` are left out. They are output, environment and a foreign library. This includes the `SUPERJOB_KEY` gate and the top-level catch of `TownNotFound`.
- The SuperJob API key is a request header, so it lives inside the `search` oracle.

=== FILE: aggregator.dfy ===
/** The aggregator: estimate every fetched vacancy, keep the estimates that
    exist, and summarise each language as found / processed / average. */
module Aggregator {
  import opened Wrappers
  import opened Errors

  /** The estimate of each vacancy, in input order. */
  function Estimates<V>(vacancies: seq<V>, estimate: V -> Option<real>): (r: seq<Option<real>>)
    ensures |r| == |vacancies|
    ensures forall i :: 0 <= i < |r| ==> r[i] == estimate(vacancies[i])
  {
    seq(|vacancies|, i requires 0 <= i < |vacancies| => estimate(vacancies[i]))
  }

  /** The values that are present, in their original order. */
  function Present(xs: seq<Option<real>>): (r: seq<real>)
    ensures |r| <= |xs|
  {
    if |xs| == 0 then []
    else (if xs[0].Some? then [xs[0].value] else []) + Present(xs[1..])
  }

  /** Dropping the missing values commutes with concatenation, so the kept
      values keep their relative order. */
  lemma {:induction false} PresentAppend(a: seq<Option<real>>, b: seq<Option<real>>)
    ensures Present(a + b) == Present(a) + Present(b)
  {
    if |a| > 0 {
      assert (a + b)[0] == a[0];
      assert (a + b)[1..] == a[1..] + b;
      PresentAppend(a[1..], b);
    } else {
      assert a + b == b;
    }
  }

  /** A value is kept exactly when it was present in the input. */
  lemma {:induction false} PresentMembers(xs: seq<Option<real>>, x: real)
    ensures x in Present(xs) <==> Some(x) in xs
  {
    if |xs| > 0 {
      PresentMembers(xs[1..], x);
      assert xs == [xs[0]] + xs[1..];
    }
  }

  /** Nothing is kept exactly when every value is missing. */
  lemma {:induction false} PresentEmpty(xs: seq<Option<real>>)
    ensures |Present(xs)| == 0 <==> forall i :: 0 <= i < |xs| ==> xs[i].None?
  {
    if |xs| > 0 {
      PresentEmpty(xs[1..]);
      assert forall i :: 1 <= i < |xs| ==> xs[i] == xs[1..][i - 1];
    }
  }

  /** Everything is kept exactly when no value is missing. */
  lemma {:induction false} PresentFull(xs: seq<Option<real>>)
    ensures |Present(xs)| == |xs| <==> forall i :: 0 <= i < |xs| ==> xs[i].Some?
  {
    if |xs| > 0 {
      PresentFull(xs[1..]);
      assert forall i :: 1 <= i < |xs| ==> xs[i] == xs[1..][i - 1];
    }
  }

  /** Collect the estimates that exist, in vacancy order. */
  method GetSalaries<V>(vacancies: seq<V>, estimate: V -> Option<real>) returns (salaries: seq<real>)
    ensures salaries == Present(Estimates(vacancies, estimate))
    ensures |salaries| <= |vacancies|
  {
    ghost var all := Estimates(vacancies, estimate);
    salaries := [];
    var i := 0;
    while i < |vacancies|
      invariant 0 <= i <= |vacancies|
      invariant salaries == Present(all[..i])
    {
      var salary := estimate(vacancies[i]);
      assert all[..i + 1] == all[..i] + [salary];
      PresentAppend(all[..i], [salary]);
      if salary.Some? {
        salaries := salaries + [salary.value];
      }
      i := i + 1;
    }
    assert all[..i] == all;
  }

  function Sum(s: seq<real>): real {
    if |s| == 0 then 0.0 else s[0] + Sum(s[1..])
  }

  /** `statistics.mean`, which is undefined on an empty list. */
  function Mean(s: seq<real>): real
    requires |s| > 0
  {
    Sum(s) / (|s| as real)
  }

  /** A sum of `n` values lying in `[lo, hi]` lies in `[n * lo, n * hi]`. */
  lemma {:induction false} SumBetween(s: seq<real>, lo: real, hi: real)
    requires forall i :: 0 <= i < |s| ==> lo <= s[i] <= hi
    ensures (|s| as real) * lo <= Sum(s) <= (|s| as real) * hi
  {
    if |s| > 0 {
      SumBetween(s[1..], lo, hi);
      assert (|s| as real) * lo == lo + (|s[1..]| as real) * lo;
      assert (|s| as real) * hi == hi + (|s[1..]| as real) * hi;
    }
  }

  /** The mean of values lying in `[lo, hi]` lies in `[lo, hi]`. */
  lemma MeanBetween(s: seq<real>, lo: real, hi: real)
    requires |s| > 0
    requires forall i :: 0 <= i < |s| ==> lo <= s[i] <= hi
    ensures lo <= Mean(s) <= hi
  {
    SumBetween(s, lo, hi);
    var n := |s| as real;
    assert n * lo <= Sum(s) <= n * hi;
    assert lo == (n * lo) / n && hi == (n * hi) / n;
  }

  /** Python's `int(x)` on a number: truncation toward zero. */
  function Truncate(x: real): (r: int)
    ensures x >= 0.0 ==> r >= 0 && r as real <= x < r as real + 1.0
    ensures x < 0.0 ==> r <= 0 && r as real - 1.0 < x <= r as real
  {
    if x >= 0.0 then x.Floor else -((-x).Floor)
  }

  /** The per-language record of a report. */
  datatype LanguageStats = LanguageStats(vacanciesFound: nat, vacanciesProcessed: nat, averageSalary: int)

  /** Summarise one language's vacancies. Without a single estimate the mean
      is undefined and `statistics.mean` raises `StatisticsError`; that is
      `NoEstimates` here. */
  function StatsFor<V>(vacancies: seq<V>, estimate: V -> Option<real>): (r: Result<LanguageStats, Error>)
    ensures r.Failure? <==> forall i :: 0 <= i < |vacancies| ==> estimate(vacancies[i]).None?
    ensures r.Failure? ==> r.error == NoEstimates
    ensures r.Success? ==>
              && r.value.vacanciesFound == |vacancies|
              && 0 < r.value.vacanciesProcessed <= r.value.vacanciesFound
              && r.value.vacanciesProcessed == |Present(Estimates(vacancies, estimate))|
              && r.value.averageSalary == Truncate(Mean(Present(Estimates(vacancies, estimate))))
    ensures r.Success? ==>
              (r.value.vacanciesProcessed == r.value.vacanciesFound <==>
                 forall i :: 0 <= i < |vacancies| ==> estimate(vacancies[i]).Some?)
  {
    var estimates := Estimates(vacancies, estimate);
    var salaries := Present(estimates);
    PresentEmpty(estimates);
    PresentFull(estimates);
    if |salaries| == 0 then Failure(NoEstimates)
    else Success(LanguageStats(|vacancies|, |salaries|, Truncate(Mean(salaries))))
  }

  /** When every estimate lies in `[lo, hi]` with `lo >= 0`, so does the
      reported average, up to the truncation of `lo`. */
  lemma StatsAverageBetween<V>(vacancies: seq<V>, estimate: V -> Option<real>, lo: real, hi: real)
    requires 0.0 <= lo
    requires forall i :: 0 <= i < |vacancies| && estimate(vacancies[i]).Some? ==>
               lo <= estimate(vacancies[i]).value <= hi
    requires StatsFor(vacancies, estimate).Success?
    ensures lo.Floor <= StatsFor(vacancies, estimate).value.averageSalary
    ensures StatsFor(vacancies, estimate).value.averageSalary as real <= hi
  {
    var estimates := Estimates(vacancies, estimate);
    var salaries := Present(estimates);
    forall k | 0 <= k < |salaries|
      ensures lo <= salaries[k] <= hi
    {
      PresentMembers(estimates, salaries[k]);
      var i :| 0 <= i < |estimates| && estimates[i] == Some(salaries[k]);
      assert estimate(vacancies[i]) == Some(salaries[k]);
    }
    MeanBetween(salaries, lo, hi);
  }

  const QueryPrefix := "программист "

  /** The search phrase for one language: the fixed prefix, then the language. */
  function Query(language: string): (q: string)
    ensures |q| == |QueryPrefix| + |language|
    ensures q[..|QueryPrefix|] == QueryPrefix && q[|QueryPrefix|..] == language
  {
    QueryPrefix + language
  }

  /** Fetch and summarise one language: it fails with the fetch's error, or
      with `NoEstimates` when none of the fetched vacancies has an estimate. */
  function LanguageStep<V>(language: string, fetch: string -> Result<seq<V>, Error>,
                           estimate: V -> Option<real>): (r: Result<LanguageStats, Error>)
    ensures r.Success? <==>
              && fetch(Query(language)).Success?
              && exists i :: 0 <= i < |fetch(Query(language)).value| && estimate(fetch(Query(language)).value[i]).Some?
    ensures fetch(Query(language)).Failure? ==> r == Failure(fetch(Query(language)).error)
    ensures fetch(Query(language)).Success? && r.Failure? ==> r.error == NoEstimates
    ensures r.Success? ==>
              && r.value.vacanciesFound == |fetch(Query(language)).value|
              && 0 < r.value.vacanciesProcessed <= r.value.vacanciesFound
  {
    var vacancies :- fetch(Query(language));
    StatsFor(vacancies, estimate)
  }

  /** Run every language in order; the first error aborts the whole report.
      A repeated language overwrites its entry with the same record. */
  function PredictProgrammersVacancies<V>(languages: seq<string>, fetch: string -> Result<seq<V>, Error>,
                                          estimate: V -> Option<real>): (r: Result<map<string, LanguageStats>, Error>)
    ensures r.Success? ==> r.value.Keys == set l | l in languages
    ensures r.Success? ==> forall l :: l in r.value ==> LanguageStep(l, fetch, estimate) == Success(r.value[l])
    ensures r.Success? ==> forall l :: l in r.value ==> r.value[l].vacanciesProcessed <= r.value[l].vacanciesFound
    decreases |languages|
  {
    if |languages| == 0 then Success(map[])
    else
      var n := |languages| - 1;
      var init := languages[..n];
      assert languages == init + [languages[n]];
      match PredictProgrammersVacancies(init, fetch, estimate)
      case Failure(e) => Failure(e)
      case Success(earlier) =>
        match LanguageStep(languages[n], fetch, estimate)
        case Failure(e) => Failure(e)
        case Success(stats) => Success(earlier[languages[n] := stats])
  }

  /** The report succeeds exactly when every language's step succeeds. */
  lemma {:induction false} PredictSucceedsIff<V>(languages: seq<string>, fetch: string -> Result<seq<V>, Error>,
                                                 estimate: V -> Option<real>)
    ensures PredictProgrammersVacancies(languages, fetch, estimate).Success? <==>
              forall i :: 0 <= i < |languages| ==> LanguageStep(languages[i], fetch, estimate).Success?
    decreases |languages|
  {
    if |languages| > 0 {
      var n := |languages| - 1;
      var init := languages[..n];
      PredictSucceedsIff(init, fetch, estimate);
      assert forall i :: 0 <= i < n ==> init[i] == languages[i];
    }
  }

  /** A failed report carries the error of the first language that failed. */
  lemma {:induction false} PredictFirstError<V>(languages: seq<string>, fetch: string -> Result<seq<V>, Error>,
                                                estimate: V -> Option<real>)
    requires PredictProgrammersVacancies(languages, fetch, estimate).Failure?
    ensures var e := PredictProgrammersVacancies(languages, fetch, estimate).error;
            exists i :: && 0 <= i < |languages|
                        && LanguageStep(languages[i], fetch, estimate) == Failure(e)
                        && forall j :: 0 <= j < i ==> LanguageStep(languages[j], fetch, estimate).Success?
    decreases |languages|
  {
    var n := |languages| - 1;
    var init := languages[..n];
    var e := PredictProgrammersVacancies(languages, fetch, estimate).error;
    assert forall i :: 0 <= i < n ==> init[i] == languages[i];
    if PredictProgrammersVacancies(init, fetch, estimate).Failure? {
      PredictFirstError(init, fetch, estimate);
      var i :| && 0 <= i < |init|
               && LanguageStep(init[i], fetch, estimate) == Failure(e)
               && forall j :: 0 <= j < i ==> LanguageStep(init[j], fetch, estimate).Success?;
      assert LanguageStep(languages[i], fetch, estimate) == Failure(e);
    } else {
      PredictSucceedsIff(init, fetch, estimate);
      assert LanguageStep(languages[n], fetch, estimate) == Failure(e);
    }
  }
}

=== FILE: areas.dfy ===
/** The area resolvers: a depth-first name search over HeadHunter's area tree,
    and the first-result rule for SuperJob's town search. */
module Areas {
  import opened Wrappers
  import opened Errors

  /** A node of HeadHunter's area tree: country, region, city, ... */
  datatype Area = Area(name: string, id: string, areas: seq<Area>)

  /** Id of the first area named `text`, searching each node before its
      children and the children before the node's later siblings: exactly a
      linear search of the pre-order listing. */
  function FindArea(areas: seq<Area>, text: string): (r: Option<string>)
    ensures r == FirstNamed(PreOrder(areas), text)
    decreases areas
  {
    if |areas| == 0 then None
    else
      var area := areas[0];
      PreOrderSearchSplit(areas, text);
      if area.name == text then Some(area.id)
      else
        var sub := if |area.areas| > 0 then FindArea(area.areas, text) else None;
        if sub.Some? then sub else FindArea(areas[1..], text)
  }

  /** Searching the pre-order listing of a non-empty forest: the first root,
      then its subtree, then the later roots. */
  lemma PreOrderSearchSplit(areas: seq<Area>, text: string)
    requires |areas| > 0
    ensures FirstNamed(PreOrder(areas), text) ==
              if areas[0].name == text then Some(areas[0].id)
              else if FirstNamed(PreOrder(areas[0].areas), text).Some? then FirstNamed(PreOrder(areas[0].areas), text)
              else FirstNamed(PreOrder(areas[1..]), text)
  {
    var inner := PreOrder(areas[0].areas);
    var rest := PreOrder(areas[1..]);
    assert PreOrder(areas) == [areas[0]] + (inner + rest);
    assert ([areas[0]] + (inner + rest))[1..] == inner + rest;
    FirstNamedAppend(inner, rest, text);
  }

  /** Every node of a forest, in pre-order: parent before its children,
      siblings left to right. */
  function PreOrder(areas: seq<Area>): (r: seq<Area>)
    decreases areas
  {
    if |areas| == 0 then []
    else [areas[0]] + PreOrder(areas[0].areas) + PreOrder(areas[1..])
  }

  /** No node in `nodes` carries the name `text`. */
  predicate NoneNamed(nodes: seq<Area>, text: string) {
    forall k :: 0 <= k < |nodes| ==> nodes[k].name != text
  }

  /** Linear search: the id of the first node in `nodes` named `text`. */
  function FirstNamed(nodes: seq<Area>, text: string): Option<string> {
    if |nodes| == 0 then None
    else if nodes[0].name == text then Some(nodes[0].id)
    else FirstNamed(nodes[1..], text)
  }

  /** The linear search finds nothing exactly when no node has the name, and
      otherwise the id of the first node that has it. */
  lemma {:induction false} FirstNamedMeaning(nodes: seq<Area>, text: string)
    ensures FirstNamed(nodes, text).None? <==> NoneNamed(nodes, text)
    ensures FirstNamed(nodes, text).Some? ==>
              exists k :: && 0 <= k < |nodes|
                          && nodes[k].name == text && nodes[k].id == FirstNamed(nodes, text).value
                          && forall j :: 0 <= j < k ==> nodes[j].name != text
  {
    if |nodes| > 0 && nodes[0].name != text {
      var tail := nodes[1..];
      FirstNamedMeaning(tail, text);
      assert forall k :: 1 <= k < |nodes| ==> nodes[k] == tail[k - 1];
      if FirstNamed(tail, text).Some? {
        var k :| && 0 <= k < |tail|
                 && tail[k].name == text && tail[k].id == FirstNamed(tail, text).value
                 && forall j :: 0 <= j < k ==> tail[j].name != text;
        assert nodes[k + 1] == tail[k];
      }
    }
  }

  /** Searching a concatenation finds the first part's match if it has one. */
  lemma {:induction false} FirstNamedAppend(a: seq<Area>, b: seq<Area>, text: string)
    ensures FirstNamed(a + b, text) ==
              if FirstNamed(a, text).Some? then FirstNamed(a, text) else FirstNamed(b, text)
  {
    if |a| > 0 {
      assert (a + b)[0] == a[0];
      assert (a + b)[1..] == a[1..] + b;
      FirstNamedAppend(a[1..], b, text);
    } else {
      assert a + b == b;
    }
  }

  /** A node belongs to the pre-order listing exactly when it is one of the
      roots or lies in the subtree below one of them. */
  lemma {:induction false} PreOrderMembers(areas: seq<Area>, node: Area)
    ensures node in PreOrder(areas) <==>
              exists i :: 0 <= i < |areas| && (node == areas[i] || node in PreOrder(areas[i].areas))
    decreases areas
  {
    if |areas| > 0 {
      PreOrderMembers(areas[1..], node);
      var here := node == areas[0] || node in PreOrder(areas[0].areas);
      if node in PreOrder(areas[1..]) {
        var i :| 0 <= i < |areas[1..]| && (node == areas[1..][i] || node in PreOrder(areas[1..][i].areas));
        assert areas[i + 1] == areas[1..][i];
      }
      if !here && (exists i :: 0 <= i < |areas| && (node == areas[i] || node in PreOrder(areas[i].areas))) {
        var i :| 0 <= i < |areas| && (node == areas[i] || node in PreOrder(areas[i].areas));
        assert i > 0;
        assert areas[1..][i - 1] == areas[i];
      }
    }
  }

  /** Soundness and first match: a returned id is that of a node named `text`,
      and no node earlier in pre-order carries that name. */
  lemma FindAreaSound(areas: seq<Area>, text: string)
    requires FindArea(areas, text).Some?
    ensures exists k :: && 0 <= k < |PreOrder(areas)|
                        && PreOrder(areas)[k].name == text && PreOrder(areas)[k].id == FindArea(areas, text).value
                        && forall j :: 0 <= j < k ==> PreOrder(areas)[j].name != text
  {
    FirstNamedMeaning(PreOrder(areas), text);
  }

  /** Completeness: the search comes back empty exactly when no node of the
      tree is named `text`. */
  lemma FindAreaComplete(areas: seq<Area>, text: string)
    ensures FindArea(areas, text).None? <==> NoneNamed(PreOrder(areas), text)
  {
    FirstNamedMeaning(PreOrder(areas), text);
  }

  const HhTownNotFound := "Город HeadHunter не найден"
  const SjTownNotFound := "Город SuperJob не найден"

  /** Resolve a city name against HeadHunter's area tree. An empty id counts
      as not found, as Python's falsy test does. */
  function GetHhAreaId(areas: seq<Area>, text: string): (r: Result<string, Error>)
    ensures r.Success? <==> FindArea(areas, text).Some? && FindArea(areas, text).value != ""
    ensures r.Success? ==> r.value == FindArea(areas, text).value
    ensures r.Failure? ==> r.error == TownNotFound(HhTownNotFound)
  {
    var found := FindArea(areas, text);
    if found.None? || found.value == "" then Failure(TownNotFound(HhTownNotFound))
    else Success(found.value)
  }

  /** A town as SuperJob's keyword search returns it. */
  datatype SjTown = SjTown(id: int, title: string)

  /** Resolve a city against SuperJob's keyword-search result: its first town. */
  function GetSjAreaId(objects: seq<SjTown>): (r: Result<int, Error>)
    ensures r.Failure? <==> |objects| == 0
    ensures r.Success? ==> r.value == objects[0].id
    ensures r.Failure? ==> r.error == TownNotFound(SjTownNotFound)
  {
    if |objects| < 1 then Failure(TownNotFound(SjTownNotFound))
    else Success(objects[0].id)
  }
}

=== FILE: errors.dfy ===
/** The exceptions that can end a report. */
module Errors {

  datatype Error =
    | TownNotFound(message: string)   // the city lookup found nothing
    | RequestFailed(status: int)      // `raise_for_status` on a non-success reply
    | NoEstimates                     // `statistics.mean` over an empty list
}

=== FILE: estimator.dfy ===
/** The salary estimator: one representative figure from a (possibly partial)
    advertised range, and the two provider adapters that gate it on currency. */
module Estimator {
  import opened Wrappers

  /** A salary bound as a provider reports it: missing, or an amount. */
  type Bound = Option<real>

  /** The estimator treats a bound of zero exactly like a missing one. */
  predicate Absent(b: Bound) {
    b.None? || b.value == 0.0
  }

  /** Estimate one salary from its lower and upper bound. With both bounds
      given the result is the half-spread `(to - from) / 2`, kept as written. */
  function PredictSalary(from: Bound, to: Bound): (r: Option<real>)
    ensures r.None? <==> Absent(from) && Absent(to)
    ensures Absent(from) && !Absent(to) ==> r == Some(to.value * 0.8)
    ensures !Absent(from) && Absent(to) ==> r == Some(from.value * 1.2)
    ensures !Absent(from) && !Absent(to) ==> r == Some((to.value - from.value) / 2.0)
  {
    if Absent(from) && Absent(to) then None
    else if Absent(from) then Some(to.value * 0.8)
    else if Absent(to) then Some(from.value * 1.2)
    else Some((to.value - from.value) / 2.0)
  }

  /** A zero bound and a missing bound give the same estimate, on either side. */
  lemma ZeroBoundIsAbsent(from: Bound, to: Bound)
    ensures PredictSalary(Some(0.0), to) == PredictSalary(None, to)
    ensures PredictSalary(from, Some(0.0)) == PredictSalary(from, None)
  {
  }

  /** With one positive bound the estimate moves away from it: 20% below an
      upper bound, 20% above a lower bound. */
  lemma SingleBoundDirection(x: real)
    requires x > 0.0
    ensures PredictSalary(None, Some(x)).value < x
    ensures PredictSalary(Some(x), None).value > x
  {
  }

  /** With both bounds given the estimate is the arithmetic mean shifted down
      by the lower bound, so it is the mean only when the lower bound is zero,
      which the estimator treats as absent anyway. */
  lemma SpreadIsNotMean(from: real, to: real)
    requires from != 0.0 && to != 0.0
    ensures PredictSalary(Some(from), Some(to)).value == (from + to) / 2.0 - from
    ensures PredictSalary(Some(from), Some(to)).value != (from + to) / 2.0
  {
  }

  /** Worked examples: 0/0 and None/None give nothing; None/1000 gives 800;
      1000/None gives 1200; 1000/2000 gives 500; equal bounds give 0; a lower
      bound above the upper one gives a negative estimate. */
  lemma WorkedExamples()
    ensures PredictSalary(Some(0.0), Some(0.0)) == None
    ensures PredictSalary(None, None) == None
    ensures PredictSalary(None, Some(1000.0)) == Some(800.0)
    ensures PredictSalary(Some(1000.0), None) == Some(1200.0)
    ensures PredictSalary(Some(1000.0), Some(2000.0)) == Some(500.0)
    ensures PredictSalary(Some(1000.0), Some(1000.0)) == Some(0.0)
    ensures PredictSalary(Some(2000.0), Some(1000.0)) == Some(-500.0)
  {
  }

  /** The salary part of a HeadHunter vacancy. */
  datatype HhSalary = HhSalary(from: Bound, to: Bound, currency: string)

  /** A HeadHunter vacancy; its salary may be missing altogether. */
  datatype HhVacancy = HhVacancy(salary: Option<HhSalary>)

  /** A SuperJob vacancy; the payment fields sit on the vacancy itself. */
  datatype SjVacancy = SjVacancy(paymentFrom: Bound, paymentTo: Bound, currency: string)

  const HhRouble := "RUR"
  const SjRouble := "rub"

  /** Rouble estimate of a HeadHunter vacancy. */
  function PredictRubSalaryHh(v: HhVacancy): (r: Option<real>)
    ensures v.salary.None? ==> r.None?
    ensures v.salary.Some? && v.salary.value.currency != HhRouble ==> r.None?
    ensures v.salary.Some? && v.salary.value.currency == HhRouble ==>
              r == PredictSalary(v.salary.value.from, v.salary.value.to)
    ensures r.Some? <==>
              && v.salary.Some?
              && v.salary.value.currency == HhRouble
              && !(Absent(v.salary.value.from) && Absent(v.salary.value.to))
  {
    if v.salary.None? || v.salary.value.currency != HhRouble then None
    else PredictSalary(v.salary.value.from, v.salary.value.to)
  }

  /** Rouble estimate of a SuperJob vacancy. */
  function PredictRubSalarySj(v: SjVacancy): (r: Option<real>)
    ensures v.currency != SjRouble ==> r.None?
    ensures v.currency == SjRouble ==> r == PredictSalary(v.paymentFrom, v.paymentTo)
    ensures r.Some? <==> v.currency == SjRouble && !(Absent(v.paymentFrom) && Absent(v.paymentTo))
  {
    if v.currency != SjRouble then None
    else PredictSalary(v.paymentFrom, v.paymentTo)
  }
}

=== FILE: pagination.dfy ===
/** The vacancy fetchers: request page 0, 1, ... and stop once the page
    counter reaches the page count the provider reports. The network is an
    oracle: `reply(k)` is what the server answers for page `k`, and the
    reported page count is taken to be the same on every reply. */
module Pagination {
  import opened Wrappers
  import opened Errors

  /** The server's answer to one page request. */
  datatype Reply<V> = Page(items: seq<V>) | Failed(status: int)

  /** A search as the server sees it: the page count it reports, and its
      answer to each page request. */
  datatype Server<V> = Server(pages: int, reply: nat -> Reply<V>)

  const HhPerPage := 20
  const SjPageSize := 100

  /** How many requests the loop makes when the server reports `pages`:
      the first request is made unconditionally. */
  function Requests(pages: int): (n: nat)
    ensures n >= 1
    ensures pages >= 1 ==> n == pages
    ensures pages < 1 ==> n == 1
  {
    if pages <= 1 then 1 else pages
  }

  /** SuperJob reports an item total; the page count is derived from it by
      floor division (Dafny's `/` agrees with Python's `//` for divisor 100). */
  function SjPages(total: int): (pages: int)
    ensures total >= 0 ==> pages >= 1
    ensures SjPageSize * (pages - 1) <= total < SjPageSize * pages
  {
    total / SjPageSize + 1
  }

  /** Reference definition: request pages `0 .. n-1` in order and concatenate
      their items; the first failed page aborts the whole fetch. */
  function Gather<V>(reply: nat -> Reply<V>, n: nat): (r: Result<seq<V>, Error>)
  {
    if n == 0 then Success([])
    else
      var earlier :- Gather(reply, n - 1);
      match reply(n - 1)
      case Failed(status) => Failure(RequestFailed(status))
      case Page(items) => Success(earlier + items)
  }

  /** The fetch loop, as both providers run it against a server reporting
      `pages` pages. `requests` is the number of page requests made. */
  method FetchAll<V>(reply: nat -> Reply<V>, pages: int) returns (r: Result<seq<V>, Error>, requests: nat)
    ensures r == Gather(reply, Requests(pages))
    ensures 1 <= requests <= Requests(pages)
    ensures r.Success? ==> requests == Requests(pages)
    ensures forall k :: 0 <= k < requests - 1 ==> reply(k).Page?
    ensures r.Failure? ==> reply(requests - 1).Failed? && r.error == RequestFailed(reply(requests - 1).status)
  {
    var vacancies := [];
    var page: nat := 0;
    while true
      invariant page < Requests(pages)
      invariant Gather(reply, page) == Success(vacancies)
      invariant forall k :: 0 <= k < page ==> reply(k).Page?
      decreases Requests(pages) - page
    {
      var answer := reply(page);
      if answer.Failed? {
        GatherStopsAtFailure(reply, page, Requests(pages));
        return Failure(RequestFailed(answer.status)), page + 1;
      }
      vacancies := vacancies + answer.items;
      page := page + 1;
      if page >= pages {
        break;
      }
    }
    return Success(vacancies), page;
  }

  /** Once page `k` fails, every longer fetch fails with the same error. */
  lemma {:induction false} GatherStopsAtFailure<V>(reply: nat -> Reply<V>, k: nat, n: nat)
    requires k < n
    requires Gather(reply, k).Success?
    requires reply(k).Failed?
    ensures Gather(reply, n) == Failure(RequestFailed(reply(k).status))
    decreases n
  {
    if n > k + 1 {
      GatherStopsAtFailure(reply, k, n - 1);
    }
  }

  /** HeadHunter: the server reports the page count directly. */
  function FetchHh<V>(server: Server<V>): (r: Result<seq<V>, Error>)
  {
    Gather(server.reply, Requests(server.pages))
  }

  /** A SuperJob search: the item total it reports, and its answer to each
      page request. */
  datatype SjServer<V> = SjServer(total: int, reply: nat -> Reply<V>)

  /** SuperJob: the page count is derived from the reported item total. */
  function FetchSj<V>(server: SjServer<V>): (r: Result<seq<V>, Error>)
  {
    Gather(server.reply, Requests(SjPages(server.total)))
  }

  /** The HeadHunter loop: the page count is read from the replies. */
  method GetHhVacancies<V>(server: Server<V>) returns (r: Result<seq<V>, Error>, requests: nat)
    ensures r == FetchHh(server)
    ensures 1 <= requests <= Requests(server.pages)
    ensures r.Success? ==> requests == Requests(server.pages)
    ensures forall k :: 0 <= k < requests - 1 ==> server.reply(k).Page?
    ensures r.Failure? ==> server.reply(requests - 1).Failed?
  {
    r, requests := FetchAll(server.reply, server.pages);
  }

  /** The SuperJob loop: the page count is `total // 100 + 1`, so at least
      one page is fetched whenever the total is not negative. */
  method GetSjVacancies<V>(server: SjServer<V>) returns (r: Result<seq<V>, Error>, requests: nat)
    ensures r == FetchSj(server)
    ensures 1 <= requests <= Requests(SjPages(server.total))
    ensures r.Success? ==> requests == Requests(SjPages(server.total))
    ensures forall k :: 0 <= k < requests - 1 ==> server.reply(k).Page?
    ensures r.Failure? ==> server.reply(requests - 1).Failed?
    ensures r.Success? && server.total >= 0 ==> requests == server.total / SjPageSize + 1
  {
    r, requests := FetchAll(server.reply, SjPages(server.total));
  }

  /** Where page `k` of a listing starts, with `size` items per page: each
      page starts `size` items after the previous one, capped at the end. */
  function PageStart(listing: nat, size: nat, k: nat): (start: nat)
    ensures start <= listing
  {
    if k == 0 then 0
    else
      var previous := PageStart(listing, size, k - 1);
      if previous + size <= listing then previous + size else listing
  }

  /** Page `k` starts at `min(listing, size * k)`. */
  lemma {:induction false} PageStartIsCapped(listing: nat, size: nat, k: nat)
    ensures PageStart(listing, size, k) == if size * k <= listing then size * k else listing
  {
    if k > 0 {
      PageStartIsCapped(listing, size, k - 1);
      assert size * k == size * (k - 1) + size;
    }
  }

  /** Page `k` of `listing` as a well-behaved server serves it: full pages,
      then the remainder, then empty pages. */
  function PageOf<V>(listing: seq<V>, size: nat, k: nat): seq<V> {
    listing[PageStart(|listing|, size, k) .. PageStart(|listing|, size, k + 1)]
  }

  /** One more successful page appends its items. */
  lemma GatherStep<V>(reply: nat -> Reply<V>, n: nat)
    requires n > 0
    requires Gather(reply, n - 1).Success? && reply(n - 1).Page?
    ensures Gather(reply, n) == Success(Gather(reply, n - 1).value + reply(n - 1).items)
  {
  }

  /** When each page is its slice of `listing`, `n` pages deliver the listing
      up to where page `n` would start: in order, with no gap and no repeat. */
  lemma {:induction false} GatherListing<V>(reply: nat -> Reply<V>, listing: seq<V>, size: nat, n: nat)
    requires forall k :: 0 <= k < n ==> reply(k) == Page(PageOf(listing, size, k))
    ensures Gather(reply, n) == Success(listing[..PageStart(|listing|, size, n)])
  {
    if n > 0 {
      GatherListing(reply, listing, size, n - 1);
      var a := PageStart(|listing|, size, n - 1);
      var b := PageStart(|listing|, size, n);
      assert reply(n - 1) == Page(listing[a..b]);
      GatherStep(reply, n);
      SliceJoin(listing, a, b);
    }
  }

  /** Adjacent slices join up. */
  lemma SliceJoin<V>(s: seq<V>, a: nat, b: nat)
    requires a <= b <= |s|
    ensures s[..a] + s[a..b] == s[..b]
  {
  }

  /** A SuperJob fetch against a server that serves a listing of `total`
      items page by page returns exactly that listing. */
  lemma SjFetchIsComplete<V>(server: SjServer<V>, listing: seq<V>)
    requires |listing| == server.total
    requires forall k :: 0 <= k < SjPages(server.total) ==>
               server.reply(k) == Page(PageOf(listing, SjPageSize, k))
    ensures FetchSj(server) == Success(listing)
  {
    var n := Requests(SjPages(server.total));
    GatherListing(server.reply, listing, SjPageSize, n);
    PageStartIsCapped(|listing|, SjPageSize, n);
    assert listing[..|listing|] == listing;
  }

  /** A HeadHunter fetch against a server that serves a listing page by page
      and reports enough pages of 20 to hold it returns exactly that listing. */
  lemma HhFetchIsComplete<V>(server: Server<V>, listing: seq<V>)
    requires HhPerPage * server.pages >= |listing|
    requires forall k :: 0 <= k < Requests(server.pages) ==>
               server.reply(k) == Page(PageOf(listing, HhPerPage, k))
    ensures FetchHh(server) == Success(listing)
  {
    var n := Requests(server.pages);
    GatherListing(server.reply, listing, HhPerPage, n);
    assert HhPerPage * n >= |listing|;
    PageStartIsCapped(|listing|, HhPerPage, n);
    assert listing[..|listing|] == listing;
  }
}

=== FILE: reports.dfy ===
/** The two provider pipelines: resolve the city once, then fetch and
    summarise every language against that provider's search oracle. */
module Reports {
  import opened Wrappers
  import opened Errors
  import opened Estimator
  import opened Areas
  import opened Pagination
  import opened Aggregator

  /** The parameters of a HeadHunter vacancy search, less the page number. */
  datatype HhQuery = HhQuery(text: string, perPage: int, area: Option<string>, period: Option<int>)

  /** The HeadHunter area filter: none without a city, otherwise its id. */
  function HhAreaFilter(areaTree: seq<Area>, area: Option<string>): (r: Result<Option<string>, Error>)
    ensures area.None? ==> r == Success(None)
    ensures area.Some? ==> (r.Success? <==> GetHhAreaId(areaTree, area.value).Success?)
    ensures area.Some? && r.Success? ==> r.value == Some(GetHhAreaId(areaTree, area.value).value)
    ensures area.Some? && r.Failure? ==> r.error == GetHhAreaId(areaTree, area.value).error
  {
    if area.None? then Success(None)
    else
      var id :- GetHhAreaId(areaTree, area.value);
      Success(Some(id))
  }

  /** Fetch every page of one HeadHunter search. */
  function HhFetcher(search: HhQuery -> Server<HhVacancy>, areaId: Option<string>, period: Option<int>)
    : string -> Result<seq<HhVacancy>, Error>
  {
    text => FetchHh(search(HhQuery(text, HhPerPage, areaId, period)))
  }

  /** The HeadHunter report. `areaTree` is the reply of the areas endpoint and
      `search` answers each vacancy search. */
  function PredictHhProgrammersVacancies(languages: seq<string>, area: Option<string>, period: Option<int>,
                                         areaTree: seq<Area>, search: HhQuery -> Server<HhVacancy>)
    : (r: Result<map<string, LanguageStats>, Error>)
    ensures area.Some? && FindArea(areaTree, area.value).None? ==> r == Failure(TownNotFound(HhTownNotFound))
    ensures HhAreaFilter(areaTree, area).Failure? ==> r == Failure(HhAreaFilter(areaTree, area).error)
    ensures HhAreaFilter(areaTree, area).Success? ==>
              r == PredictProgrammersVacancies(languages, HhFetcher(search, HhAreaFilter(areaTree, area).value, period),
                                               PredictRubSalaryHh)
    ensures r.Success? ==> r.value.Keys == set l | l in languages
    ensures r.Success? ==> forall l :: l in r.value ==> r.value[l].vacanciesProcessed <= r.value[l].vacanciesFound
  {
    var areaId :- HhAreaFilter(areaTree, area);
    PredictProgrammersVacancies(languages, HhFetcher(search, areaId, period), PredictRubSalaryHh)
  }

  /** The parameters of a SuperJob vacancy search, less the page number. */
  datatype SjQuery = SjQuery(keyword: string, catalogues: Option<int>, count: int, town: Option<int>)

  /** The SuperJob town filter: none without a city, otherwise the first
      town the keyword search returns. `towns` answers that search. */
  function SjAreaFilter(towns: string -> seq<SjTown>, area: Option<string>): (r: Result<Option<int>, Error>)
    ensures area.None? ==> r == Success(None)
    ensures area.Some? ==> (r.Failure? <==> |towns(area.value)| == 0)
    ensures area.Some? && r.Success? ==> r.value == Some(towns(area.value)[0].id)
    ensures area.Some? && r.Failure? ==> r.error == TownNotFound(SjTownNotFound)
  {
    if area.None? then Success(None)
    else
      var id :- GetSjAreaId(towns(area.value));
      Success(Some(id))
  }

  /** Fetch every page of one SuperJob search. */
  function SjFetcher(search: SjQuery -> SjServer<SjVacancy>, town: Option<int>, catalogue: Option<int>)
    : string -> Result<seq<SjVacancy>, Error>
  {
    keyword => FetchSj(search(SjQuery(keyword, catalogue, SjPageSize, town)))
  }

  /** The SuperJob report. The API key travels with every request and is
      part of the `search` oracle. */
  function PredictSjProgrammersVacancies(languages: seq<string>, area: Option<string>, catalogue: Option<int>,
                                         towns: string -> seq<SjTown>, search: SjQuery -> SjServer<SjVacancy>)
    : (r: Result<map<string, LanguageStats>, Error>)
    ensures area.Some? && |towns(area.value)| == 0 ==> r == Failure(TownNotFound(SjTownNotFound))
    ensures SjAreaFilter(towns, area).Failure? ==> r == Failure(SjAreaFilter(towns, area).error)
    ensures SjAreaFilter(towns, area).Success? ==>
              r == PredictProgrammersVacancies(languages, SjFetcher(search, SjAreaFilter(towns, area).value, catalogue),
                                               PredictRubSalarySj)
    ensures r.Success? ==> r.value.Keys == set l | l in languages
    ensures r.Success? ==> forall l :: l in r.value ==> r.value[l].vacanciesProcessed <= r.value[l].vacanciesFound
  {
    var town :- SjAreaFilter(towns, area);
    PredictProgrammersVacancies(languages, SjFetcher(search, town, catalogue), PredictRubSalarySj)
  }

  const SampleVacancies := [HhVacancy(Some(HhSalary(Some(1000.0), Some(2000.0), HhRouble))), HhVacancy(None)]

  /** Every page request answered with `SampleVacancies`. */
  function SamplePage(k: nat): Reply<HhVacancy> {
    Page(SampleVacancies)
  }

  /** A search reporting a single page. */
  function SampleSearch(q: HhQuery): Server<HhVacancy> {
    Server(1, SamplePage)
  }

  /** A 1000..2000 rouble vacancy and one without salary: two found, one
      processed, average 500. */
  lemma SampleStats()
    ensures StatsFor(SampleVacancies, PredictRubSalaryHh) == Success(LanguageStats(2, 1, 500))
  {
    var estimates := Estimates(SampleVacancies, PredictRubSalaryHh);
    assert estimates == [Some(500.0), None];
    assert Present(estimates[1..]) == [];
    assert Present(estimates) == [500.0];
    assert Mean([500.0]) == 500.0;
  }

  /** The same vacancies served as one page give that record in the report. */
  lemma SampleHhReport(language: string)
    ensures PredictHhProgrammersVacancies([language], None, Some(30), [], SampleSearch)
              == Success(map[language := LanguageStats(2, 1, 500)])
  {
    var fetch := HhFetcher(SampleSearch, None, Some(30));
    SampleStats();
    assert Gather(SamplePage, 0) == Success([]);
    assert SamplePage(0) == Page(SampleVacancies);
    assert [] + SampleVacancies == SampleVacancies;
    assert Gather(SamplePage, 1) == Success(SampleVacancies);
    assert FetchHh(SampleSearch(HhQuery(Query(language), HhPerPage, None, Some(30)))) == Success(SampleVacancies);
    assert fetch(Query(language)) == Success(SampleVacancies);
    assert LanguageStep(language, fetch, PredictRubSalaryHh) == Success(LanguageStats(2, 1, 500));
    assert [language][..0] == [];
    assert PredictProgrammersVacancies([], fetch, PredictRubSalaryHh) == Success(map[]);
    assert PredictProgrammersVacancies([language], fetch, PredictRubSalaryHh)
             == Success(map[language := LanguageStats(2, 1, 500)]);
    assert HhAreaFilter([], None) == Success(None);
  }
}

=== FILE: wrappers.dfy ===
/** Failure-compatible wrappers used throughout the model: `Option` for Python's
    "value or None" and `Result` for "value or raised exception". */
module Wrappers {

  datatype Option<+T> = None | Some(value: T) {
    predicate IsFailure() { None? }

    function PropagateFailure<U>(): Option<U>
      requires None?
    {
      None
    }

    function Extract(): T
      requires Some?
    {
      value
    }
  }

  datatype Result<+T, +E> = Success(value: T) | Failure(error: E) {
    predicate IsFailure() { Failure? }

    function PropagateFailure<U>(): Result<U, E>
      requires Failure?
    {
      Failure(error)
    }

    function Extract(): T
      requires Success?
    {
      value
    }
  }
}
